=== FILE: README.md ===
# PKCE login client: a Dafny model

This project models the client side of the OAuth 2.0 authorization-code flow
with PKCE (RFC 7636) of a single-page application, as `src/utils/pkce.js` and
`src/router/index.js` implement it:

- **Starting a login** (`generatePkceAndState`) draws a 128-character code
  verifier and a 32-character anti-CSRF state with `generateRandomString`. It
  derives the S256 code challenge (`generateCodeChallenge`: SHA-256 of the
  verifier's UTF-8 bytes, then `base64urlencode`) and writes verifier and
  state to `sessionStorage`.
- **Coming back from the authorization server** (the `beforeEnter` guard of
  `/` with `processOAuthCallback`) checks the returned `state` against the
  stored one and consumes the stored verifier. It exchanges the code for a
  token, then either stores the token and moves to `/dashboard`, or clears
  every secret and moves back to `/`.
- **The dashboard guard** lets the user through only with a truthy token in
  the in-memory token cell.

Every operation is a function of its inputs, so `generateCodeChallenge`
gives equal challenges for equal verifiers by construction.

The model is pure functions over immutable values:

- `sessionStorage` and the token cell are one `Secrets` value.
- Each guard entry is one `Step`: the request sent, the secrets after, the
  navigation, the outcome, and whether the address was rewritten.
- Random bytes, the SHA-256 function and the token endpoint's answer are
  inputs.

Modules:

- `Js` models the JavaScript semantics the code depends on: truthiness,
  property reads on parsed JSON, ToUint8 of a one-character string, and
  decimal ToString of a byte.
- `Utf8` is `TextEncoder`, with a decoder that shows the encoding is
  injective.
- `Base64` is `btoa` (section 4 of RFC 4648) with a decoder and a proved
  round trip.
- `Pkce` covers `src/utils/pkce.js`.
- `Router` covers `src/router/index.js`.
- `Scenarios` holds three concrete callbacks: a success, a wrong state and a
  server error.

Behaviour of the code that the model keeps as written:

- **Digit-only random strings.** `generateRandomString` maps the random
  bytes with `Uint8Array.prototype.map`, so each selected character is
  stored back through ToUint8(ToNumber(·)). A digit keeps its value and a
  letter becomes 0. `join('')` then yields one decimal digit per byte. The
  output has the requested length and uses only characters of the alphabet,
  but it is never a letter: the 52 letter positions all render as `0`
  (`Pkce.RandomString`, `Pkce.RenderedCharDigits`,
  `Pkce.RandomStringCollapsesLetters`).
- **Bare `state` key.** The state check is `state !== savedState`. A query
  that has the key `state` with no `=` gives `null`, and so does a missing
  stored state, so the check passes in that case. The exchange then goes
  ahead whenever a non-empty verifier is stored without a state and the
  query's `code` is a string.
  `Router.UnpairedBareStateExchanges` exhibits this.
  `Router.RootGuardKeepsPaired` and `Router.LoginThenCallbackPaired` show
  that no operation of the client ever leaves a verifier without its state.
  `Router.PairedExchangeNeedsStoredState` shows that, in every session the
  client produces, the request is only sent for the stored state. Section
  10.12 of RFC 6749 expects a client to reject a redirect whose state does
  not match the value bound to the user's session, so a callback without a
  stored state should never reach the exchange. The code does not enforce
  that on its own; it relies on the pairing invariant.
- **Errors thrown by the script itself.**
  - Lines 18-19 call `substring` on `code` and `state` when they are arrays
    (a repeated query key).
  - Line 60 calls `code.substring` when `code` is not a string.
  - Line 91 calls `substring` on an `access_token` that is truthy but not a
    string.
  - Lines 78-88 read a property of a `null` response body.
  - Line 81 converts the chosen error detail to the message string. That
    throws when the detail is a JSON object with its own `toString` member,
    or an array holding such an object, since the member shadows the
    callable one and `valueOf` yields no primitive.

  Each of these throws a `TypeError`, which the guard handles like any other
  failure (`Router.Failure.ScriptTypeError`).
- **Order of removals.** The stored state is removed as soon as it matches,
  before the verifier is looked up. The verifier is removed before the
  request is sent. On any failure the guard's `clearTokenStore` removes both
  anyway.

## Model

| member | source | states |
|---|---|---|
| Js.Property | src/router/index.js:78-91 | Reading `error`, `error_description` or `access_token` from a parsed JSON body yields a value exactly when the body is an object with that own member, and the value is that member's |
| Js.ToUint8OfChar | src/utils/pkce.js:4 | Storing a one-character string in a Uint8Array gives the digit's value for a digit and 0 for any other character |
| Js.NumberToString | src/utils/pkce.js:4 | Decimal ToString of an array element is a digit string without leading zero whose value is the number; it is one character exactly for numbers below 10 |
| Js.JoinSingleDigits | src/utils/pkce.js:4 | Joining elements that are all below 10 gives one character per element, the digit of that element |
| Utf8.EncodeChar | src/utils/pkce.js:20 | TextEncoder writes 1 to 4 bytes per character, one byte exactly for ASCII (its code), and continuation bytes in 0x80..0xBF |
| Utf8.EncodeCharInverse | src/utils/pkce.js:20 | The lead byte of each character's encoding announces its length, and the bytes decode back to the character |
| Utf8.EncodeInjective | src/utils/pkce.js:20 | Two verifiers with the same UTF-8 bytes are the same string |
| Utf8.Encode | src/utils/pkce.js:20 | TextEncoder encodes the verifier character by character; EncodeInjective and EncodeAscii state what it preserves |
| Utf8.EncodeAscii | src/utils/pkce.js:20 | An ASCII string encodes to its character codes, one byte per character |
| Base64.Btoa | src/utils/pkce.js:13 | btoa succeeds exactly when every character code is below 256 |
| Base64.Encode | src/utils/pkce.js:13 | The encoding btoa performs: each group of three bytes becomes four alphabet characters, and a final group of one or two bytes is padded with `=`; EncodeShape and DecodeEncode state its shape and inverse |
| Base64.EncodeShape | src/utils/pkce.js:13 | The base64 text has four characters per started group of three bytes, `=` exactly in the last (3 - n mod 3) mod 3 positions and alphabet characters elsewhere |
| Base64.DecodeEncode | src/utils/pkce.js:13 | Decoding the base64 text gives back the bytes, so no information is lost |
| Pkce.RandomString | src/utils/pkce.js:1-5 | generateRandomString returns one character per random byte: the character the byte selects from the 62-character alphabet when that is a digit, else `0`; every character is a digit of the alphabet |
| Pkce.RenderedCharDigits | src/utils/pkce.js:2-4 | A byte whose position modulo 62 is a digit renders as that digit; every letter position renders as `0` |
| Pkce.Possible | src/utils/pkce.js:2 | The 62 characters `A`-`Z`, `a`-`z`, `0`-`9` in that order, the base64 alphabet without `+` and `/`, whose digits are exactly the last ten |
| Pkce.SingleByte | src/utils/pkce.js:1-5 | One random byte yields a one-character string, the character that byte renders as |
| Pkce.RandomStringCollapsesLetters | src/utils/pkce.js:2-4 | Every byte that selects a letter gives the same one-character output as the byte that selects `0`, namely `0` |
| Pkce.TypedArrayMap | src/utils/pkce.js:4 | `.map` on the Uint8Array keeps one element per byte, each below 10, and that element's digit is the character the output shows for the byte |
| Js.JoinBytes | src/utils/pkce.js:4 | `join('')` gives at least one character per element, all decimal digits |
| Pkce.BinaryString | src/utils/pkce.js:8-12 | The loop builds a string whose character codes are the bytes, in order |
| Pkce.ReplaceAll | src/utils/pkce.js:14-15 | A global single-character replace changes exactly the occurrences of that character and keeps the length |
| Pkce.ToUrlAlphabet | src/utils/pkce.js:14-15 | The two replacements keep the length and leave no `+` and no `/` |
| Pkce.RemoveAll | src/utils/pkce.js:16 | Removing `=` leaves exactly the characters other than `=` that occur in the text, and never lengthens it |
| Pkce.RemoveAllCounts | src/utils/pkce.js:16 | Every character other than the removed one keeps its number of occurrences; the removed one has none left |
| Pkce.RemoveAllAppend | src/utils/pkce.js:16 | Removal works segment by segment, so the kept characters stay in their original order |
| Pkce.UrlAlphabetInverse | src/utils/pkce.js:14-15 | Mapping `-`/`_` back to `+`/`/` undoes the URL-safe rewriting of a standard base64 body |
| Pkce.StripPadding | src/utils/pkce.js:16 | Removing `=` from a well-formed encoding drops exactly its trailing padding |
| Pkce.UrlFormOfShaped | src/utils/pkce.js:13-16 | The rewritten text of a well-formed encoding is URL-safe, has the unpadded length, and re-padding it after undoing the rewrite gives the encoding back |
| Pkce.Base64UrlEncode | src/utils/pkce.js:7-17 | base64urlencode never yields `+`, `/` or `=` |
| Pkce.Base64UrlRoundTrip | src/utils/pkce.js:7-17 | Re-padding and undoing the rewrite gives exactly the standard base64 of the bytes; the output has ceil(4n/3) characters, all URL-safe |
| Pkce.CodeChallenge | src/utils/pkce.js:19-23 | The challenge is 43 URL-safe characters; undoing the base64url rewriting gives exactly the standard base64 of the SHA-256 digest of the verifier's UTF-8 bytes, which decodes back to that digest |
| Pkce.ChallengeOfAscii | src/utils/pkce.js:19-22 | For an ASCII verifier the hashed bytes are the character codes |
| Pkce.SaveSession | src/utils/pkce.js:30-31 | Both setItem calls leave the verifier and the state under their keys, add only those keys and keep every other entry |
| Pkce.GeneratePkceAndState | src/utils/pkce.js:25-34 | The stored verifier (128 characters) and state (32) come from the random bytes; the returned challenge is the challenge of the stored verifier and the returned state is the stored one; other entries and the token cell are unchanged |
| Pkce.GetAccessToken | src/utils/pkce.js:42-44 | getAccessToken reads the token cell as it is: StoreAccessToken and ClearTokenStore state their effect through it |
| Pkce.StoreAccessToken | src/utils/pkce.js:38-40 | After storing, getAccessToken returns that token; the session store is untouched |
| Pkce.ClearTokenStore | src/utils/pkce.js:46-50 | The token cell is null and exactly the two PKCE keys leave the session store; the rest stays; verifier and state end up paired |
| Pkce.ClearTokenStoreIdempotent | src/utils/pkce.js:46-50 | Clearing twice equals clearing once |
| Pkce.ClearAfterLogin | src/utils/pkce.js:25-50 | Clearing after a login start leaves the same secrets as clearing before it |
| Js.Truthy | src/router/index.js:78-88 | ToBoolean of a property read from the response: undefined, null, false, 0 and the empty string are falsy, every other value (arrays and objects included) is truthy |
| Router.QueryTruthy | src/router/index.js:109 | ToBoolean of a query value: absent, a bare key (null) and the empty string are falsy; a non-empty value and a repeated key (an array) are truthy |
| Router.StrictEqualsSaved | src/router/index.js:25 | `state === savedState` against a string or null: a value equals only the same stored string, a bare key (null) equals only a missing stored state, undefined and arrays never match |
| Router.GetItem | src/router/index.js:22 | getItem yields a value exactly for a stored key, and that value is the stored one |
| Router.RequestBody | src/router/index.js:50-56 | The serialized body has exactly code, code_verifier, redirect_uri, grant_type and, when configured, client_id, with the given values, and no client secret |
| Router.ReadTokenResponse | src/router/index.js:64-93 | The exchange yields a token exactly when the response arrived, is not null, has no truthy `error` and has a non-empty string `access_token`, and the token is that string; a transport failure throws |
| Router.ServerErrorDetail | src/router/index.js:78-82 | A truthy `error` fails with `error_description` when that is truthy and `error` otherwise, or with a `TypeError` when that value has no string conversion |
| Router.ToStringThrows | src/router/index.js:81 | ToString of a parsed JSON value throws only for objects and arrays; an object throws exactly when it has its own `toString` member, an array when some element throws |
| Router.NestedToStringThrows | src/router/index.js:81 | Wrapping a detail in arrays, to any depth, throws exactly when the detail itself throws |
| Router.ErrorOf | src/router/index.js:81 | `new Error(detail)` raises a `TypeError` exactly when converting the detail to a string throws, and otherwise fails with the detail itself |
| Router.ErrorWithoutStringForm | src/router/index.js:78-82 | A body `{"error":{"toString":"x"}}` makes the callback fail with a `TypeError`, not a server error |
| Router.MissingTokenFails | src/router/index.js:84-88 | Without a truthy `access_token` (and without `error`) the exchange fails with the missing-token error |
| Router.ProcessOAuthCallback | src/router/index.js:16-94 | A request is sent only for a state strictly equal to the stored one and a non-empty stored verifier; it carries that verifier, the code, the redirect URI and the grant type; the session only loses entries; success removes both keys |
| Router.RootGuard | src/router/index.js:101-138 | Without a truthy code nothing changes and the login view shows; with one, both keys are purged and the address rewritten; success stores a non-empty token and goes to /dashboard, any failure nulls the token and goes to / |
| Router.HashBeforeQuery | src/router/index.js:124 | The kept hash is the longest prefix without `?` |
| Router.DashboardGuard | src/router/index.js:145-157 | The dashboard shows exactly when the token cell holds a non-empty string; otherwise the user is sent to / |
| Router.StateMismatchNoExchange | src/router/index.js:25-30 | A state that does not strictly equal the stored one (any present state when none is stored) sends no request, fails, nulls the token, purges both keys and goes to / |
| Router.MissingSessionStateFails | src/router/index.js:22-29 | With no stored state, a missing or valued query state never reaches the exchange |
| Router.MissingVerifierNoExchange | src/router/index.js:36-40 | A missing or empty verifier sends no request and ends in the same cleanup |
| Router.RequestBodyHasNoSecret | src/router/index.js:50-71 | The body actually sent contains the query code, the stored verifier, the fixed redirect URI and grant type, and no client secret |
| Router.ExchangeSucceedsIff | src/router/index.js:117-126 | After a request, the step authenticates with token t exactly when the response has no truthy error and `access_token` is the non-empty string t; then t is stored and the user goes to /dashboard |
| Router.ExchangeFailureClears | src/router/index.js:128-137 | A failed exchange ends with a null token cell, the response's failure as outcome, and navigation to / |
| Router.ExchangeNeedsMatchingState | src/router/index.js:22-30 | A request implies the query state equals the stored state, or is a bare key while none is stored |
| Router.PairedExchangeNeedsStoredState | src/router/index.js:22-43 | When verifier and state are stored together, a request implies a stored state equal to the query's |
| Router.UnpairedBareStateExchanges | src/router/index.js:22-43 | A verifier stored without a state and the query `?code=c&state` do send the verifier |
| Router.RootGuardKeepsPaired | src/router/index.js:101-138 | A guard step keeps verifier and state paired |
| Router.LoginThenCallbackPaired | src/utils/pkce.js:25-34 | A login start leaves verifier and state paired, and so does the callback step after it |
| Router.MatchingCallbackExchanges | src/router/index.js:16-75 | A non-empty code with the stored state, while a non-empty verifier is stored, sends exactly that verifier and code |
| Router.LoginThenCallbackExchanges | src/router/index.js:16-75 | The callback for a login just started, with its state, sends the verifier whose challenge that login returned |
| Router.ReplayNeverExchanges | src/router/index.js:33-43 | Entering the same callback address a second time never sends a request |
| Router.FailureCleanupIdempotent | src/router/index.js:128-137 | After a failed step, clearing again changes nothing |
| Router.FreshLoadNeedsLogin | src/utils/pkce.js:36 | The token cell starts null on every page load, so the dashboard guard then sends the user to / whatever the session store holds |
| Router.DashboardAfterCallback | src/router/index.js:145-157 | After a callback, the dashboard opens exactly when the callback succeeded |
| Scenarios.CallbackSucceeds | src/router/index.js:101-126 | Callback `code=abc123&state=XYZ` with stored state XYZ and verifier V1, answered `{"access_token":"tok_1"}`, sends code and verifier and stores tok_1 |
| Scenarios.CallbackWrongState | src/router/index.js:25-30 | The same callback with stored state ABC sends nothing and fails with a state mismatch |
| Scenarios.CallbackServerError | src/router/index.js:78-82 | A `{"error":"bad_verification_code"}` answer fails with that detail and leaves no token |

## Left out

- `crypto.getRandomValues` is not modelled; the random bytes are parameters of `RandomString` and `GeneratePkceAndState`.
- `crypto.subtle.digest('SHA-256', …)` is not modelled; it is the parameter `sha256`, and only its 32-byte output length is assumed.
- `fetch` and `response.json()` are not modelled; the token endpoint's answer is the input `TokenResponse`, either a parsed JSON value or a rejection. HTTP status codes are not read by the code and are not modelled.
- Promise scheduling is not modelled; each async function is treated as running to completion without interleaving.
- `console.log`/`console.error` and `alert` are not modelled because they have no effect on state. The exception is the TypeErrors some log lines throw, which are modelled.
- The text of each `Error` message is not modelled; a failure is a `Failure` value. A server error keeps the JSON value the message would be built from, not its string conversion.
- `window.history.replaceState` is reduced to the flag `addressReplaced` plus `HashBeforeQuery`; the browser's address bar is not modelled.
- Vue Router's query parsing is not modelled. It is reduced to the four forms a query value can take, and the values of a repeated key are not kept, since the code throws before reading them.
- Route and component wiring, `determineProfile`, the global `beforeEach` logger, and building the authorization URL are not modelled; they lie outside the two files this model covers.
- The token endpoint URL (`TOKEN_ENDPOINT`) and the request headers are not modelled; the model records the body of the one request the step sends, not its target.
- `VITE_APP_CLIENT_ID` is the `Config` parameter; build-time environment handling is not modelled.
- Utf8.EncodeChar: lone UTF-16 surrogates, which `TextEncoder` replaces by U+FFFD, are not modelled because Dafny characters are Unicode scalar values.
- Js.Truthy: NaN is not modelled, because parsed JSON never contains it.

=== FILE: base64.dfy ===
/** `btoa` over a binary string: the base64 encoding of section 4 of RFC 4648,
    with `=` padding, together with its decoder. */
module Base64 {
  import opened Js

  /** The character of a 6-bit value in the alphabet of section 4 of RFC 4648. */
  function CharOf(i: int): (c: char)
    requires 0 <= i < 64
  {
    if i < 26 then ('A' as int + i) as char
    else if i < 52 then ('a' as int + (i - 26)) as char
    else if i < 62 then ('0' as int + (i - 52)) as char
    else if i == 62 then '+'
    else '/'
  }

  predicate IsAlphabetChar(c: char) {
    'A' <= c <= 'Z' || 'a' <= c <= 'z' || '0' <= c <= '9' || c == '+' || c == '/'
  }

  /** The 6-bit value of an alphabet character; the inverse of CharOf. */
  function IndexOf(c: char): (i: int)
    requires IsAlphabetChar(c)
    ensures 0 <= i < 64 && CharOf(i) == c
  {
    if 'A' <= c <= 'Z' then c as int - 'A' as int
    else if 'a' <= c <= 'z' then c as int - 'a' as int + 26
    else if '0' <= c <= '9' then c as int - '0' as int + 52
    else if c == '+' then 62
    else 63
  }

  lemma CharOfInAlphabet(i: int)
    requires 0 <= i < 64
    ensures IsAlphabetChar(CharOf(i)) && IndexOf(CharOf(i)) == i
  {
  }

  const Pad: char := '='

  /** Number of `=` characters that end the encoding of `n` bytes. */
  function PadCount(n: nat): nat {
    (3 - n % 3) % 3
  }

  /** A full 24-bit group: three bytes as four 6-bit characters. */
  function Group3(x: byte, y: byte, z: byte): string {
    [CharOf(x / 4), CharOf((x % 4) * 16 + y / 16), CharOf((y % 16) * 4 + z / 64), CharOf(z % 64)]
  }

  /** A final group of two bytes: three characters and one `=`. */
  function Group2(x: byte, y: byte): string {
    [CharOf(x / 4), CharOf((x % 4) * 16 + y / 16), CharOf((y % 16) * 4), Pad]
  }

  /** A final group of one byte: two characters and two `=`. */
  function Group1(x: byte): string {
    [CharOf(x / 4), CharOf((x % 4) * 16), Pad, Pad]
  }

  /** The encoding of a byte string, one 24-bit group at a time; a final
      group of one or two bytes is padded to four characters with `=`. */
  function Encode(b: seq<byte>): string
    decreases |b|
  {
    if |b| == 0 then []
    else if |b| == 1 then Group1(b[0])
    else if |b| == 2 then Group2(b[0], b[1])
    else Group3(b[0], b[1], b[2]) + Encode(b[3..])
  }

  /** The shape of an encoding: four characters per started group, `=` exactly
      in the last PadCount positions, alphabet characters everywhere else. */
  ghost predicate WellShaped(n: nat, e: string) {
    && |e| == 4 * ((n + 2) / 3)
    && (forall i :: 0 <= i < |e| ==> (e[i] == Pad <==> i >= |e| - PadCount(n)))
    && (forall i :: 0 <= i < |e| ==> e[i] != Pad ==> IsAlphabetChar(e[i]))
  }

  /** Four alphabet characters in front of a well-shaped encoding of `n`
      bytes give a well-shaped encoding of `n + 3` bytes. */
  lemma ShapeAfterGroup(n: nat, head: string, tail: string)
    requires |head| == 4 && forall i :: 0 <= i < 4 ==> IsAlphabetChar(head[i])
    requires WellShaped(n, tail)
    ensures WellShaped(n + 3, head + tail)
  {
    var e := head + tail;
    assert PadCount(n + 3) == PadCount(n);
    assert 4 * ((n + 3 + 2) / 3) == 4 + 4 * ((n + 2) / 3);
    forall i | 0 <= i < |e|
      ensures (e[i] == Pad <==> i >= |e| - PadCount(n + 3))
      ensures e[i] != Pad ==> IsAlphabetChar(e[i])
    {
      if i >= 4 {
        assert e[i] == tail[i - 4];
      }
    }
  }

  lemma Group3Shape(x: byte, y: byte, z: byte)
    ensures forall i :: 0 <= i < 4 ==> IsAlphabetChar(Group3(x, y, z)[i])
  {
    CharOfInAlphabet(x / 4);
    CharOfInAlphabet((x % 4) * 16 + y / 16);
    CharOfInAlphabet((y % 16) * 4 + z / 64);
    CharOfInAlphabet(z % 64);
  }

  lemma {:induction false} EncodeShape(b: seq<byte>)
    ensures WellShaped(|b|, Encode(b))
    decreases |b|
  {
    if |b| == 0 {
    } else if |b| == 1 {
      CharOfInAlphabet(b[0] / 4);
      CharOfInAlphabet((b[0] % 4) * 16);
    } else if |b| == 2 {
      CharOfInAlphabet(b[0] / 4);
      CharOfInAlphabet((b[0] % 4) * 16 + b[1] / 16);
      CharOfInAlphabet((b[1] % 16) * 4);
    } else {
      EncodeShape(b[3..]);
      Group3Shape(b[0], b[1], b[2]);
      ShapeAfterGroup(|b| - 3, Group3(b[0], b[1], b[2]), Encode(b[3..]));
    }
  }

  /** `btoa(s)`: defined for strings whose characters all have codes below
      256 (a "binary string"); any other string makes `btoa` throw. */
  function Btoa(s: string): (r: Option<string>)
    ensures r.Some? <==> forall i :: 0 <= i < |s| ==> s[i] as int < 256
  {
    if forall i :: 0 <= i < |s| ==> s[i] as int < 256 then
      Some(Encode(seq(|s|, i requires 0 <= i < |s| => s[i] as int)))
    else
      None
  }

  /** The bytes of one group of four characters, or None if the group is not
      a valid (possibly padded) group. */
  function DecodeGroup(c0: char, c1: char, c2: char, c3: char): (r: Option<seq<byte>>)
    ensures r.Some? ==> 1 <= |r.value| <= 3
  {
    if !IsAlphabetChar(c0) || !IsAlphabetChar(c1) then None
    else
      var i0, i1 := IndexOf(c0), IndexOf(c1);
      if c2 == Pad && c3 == Pad then Some([i0 * 4 + i1 / 16])
      else if !IsAlphabetChar(c2) then None
      else
        var i2 := IndexOf(c2);
        if c3 == Pad then Some([i0 * 4 + i1 / 16, (i1 % 16) * 16 + i2 / 4])
        else if !IsAlphabetChar(c3) then None
        else
          var i3 := IndexOf(c3);
          Some([i0 * 4 + i1 / 16, (i1 % 16) * 16 + i2 / 4, (i2 % 4) * 64 + i3])
  }

  /** Decoding: groups of four characters; a padded group may only come last. */
  function Decode(s: string): Option<seq<byte>>
    decreases |s|
  {
    if |s| == 0 then Some([])
    else if |s| < 4 then None
    else
      match DecodeGroup(s[0], s[1], s[2], s[3])
      case None => None
      case Some(g) =>
        if |g| < 3 && |s| > 4 then None
        else
          match Decode(s[4..])
          case None => None
          case Some(rest) => Some(g + rest)
  }

  /** Splitting a 6-bit or 8-bit value back into the two parts it was built from. */
  lemma Split16(hi: int, lo: int)
    requires 0 <= hi < 16 && 0 <= lo < 16
    ensures (hi * 16 + lo) / 16 == hi && (hi * 16 + lo) % 16 == lo
  {
  }

  lemma Split4(hi: int, lo: int)
    requires 0 <= hi < 16 && 0 <= lo < 4
    ensures (hi * 4 + lo) / 4 == hi && (hi * 4 + lo) % 4 == lo
  {
  }

  lemma ByteParts(x: byte)
    ensures (x / 4) * 4 + x % 4 == x
    ensures (x / 16) * 16 + x % 16 == x
    ensures (x / 64) * 64 + x % 64 == x
  {
  }

  lemma GroupRoundTrip3(x: byte, y: byte, z: byte)
    ensures var g := Group3(x, y, z); DecodeGroup(g[0], g[1], g[2], g[3]) == Some([x, y, z])
  {
    var i0, i1, i2, i3 := x / 4, (x % 4) * 16 + y / 16, (y % 16) * 4 + z / 64, z % 64;
    CharOfInAlphabet(i0);
    CharOfInAlphabet(i1);
    CharOfInAlphabet(i2);
    CharOfInAlphabet(i3);
    Split16(x % 4, y / 16);
    Split4(y % 16, z / 64);
    ByteParts(x);
    ByteParts(y);
    ByteParts(z);
  }

  lemma GroupRoundTrip2(x: byte, y: byte)
    ensures var g := Group2(x, y); DecodeGroup(g[0], g[1], g[2], g[3]) == Some([x, y])
  {
    var i0, i1, i2 := x / 4, (x % 4) * 16 + y / 16, (y % 16) * 4;
    CharOfInAlphabet(i0);
    CharOfInAlphabet(i1);
    CharOfInAlphabet(i2);
    Split16(x % 4, y / 16);
    Split4(y % 16, 0);
    ByteParts(x);
    ByteParts(y);
  }

  lemma GroupRoundTrip1(x: byte)
    ensures var g := Group1(x); DecodeGroup(g[0], g[1], g[2], g[3]) == Some([x])
  {
    CharOfInAlphabet(x / 4);
    CharOfInAlphabet((x % 4) * 16);
    Split16(x % 4, 0);
    ByteParts(x);
  }

  /** A lone (final) group decodes to its own bytes. */
  lemma DecodeLastGroup(e: string)
    requires |e| == 4 && DecodeGroup(e[0], e[1], e[2], e[3]).Some?
    ensures Decode(e) == DecodeGroup(e[0], e[1], e[2], e[3])
  {
    var g := DecodeGroup(e[0], e[1], e[2], e[3]).value;
    assert Decode(e[4..]) == Some([]);
    assert g + [] == g;
  }

  /** A full group followed by a decodable rest decodes to the concatenation. */
  lemma DecodeFullGroup(e: string)
    requires |e| >= 4
    requires DecodeGroup(e[0], e[1], e[2], e[3]).Some?
    requires |DecodeGroup(e[0], e[1], e[2], e[3]).value| == 3
    requires Decode(e[4..]).Some?
    ensures Decode(e) == Some(DecodeGroup(e[0], e[1], e[2], e[3]).value + Decode(e[4..]).value)
  {
  }

  /** A full group in front of a decodable text: the three bytes of the group
      in front of the decoded rest. */
  lemma DecodeAfterGroup(b: seq<byte>, tail: string, e: string)
    requires |b| >= 3 && Decode(tail) == Some(b[3..])
    requires e == Group3(b[0], b[1], b[2]) + tail
    ensures Decode(e) == Some(b)
  {
    GroupRoundTrip3(b[0], b[1], b[2]);
    assert e[..4] == Group3(b[0], b[1], b[2]) && e[4..] == tail;
    DecodeFullGroup(e);
    assert [b[0], b[1], b[2]] + b[3..] == b;
  }

  lemma DecodeEncode1(x: byte)
    ensures Decode(Encode([x])) == Some([x])
  {
    var e := Group1(x);
    assert Encode([x]) == e;
    GroupRoundTrip1(x);
    DecodeLastGroup(e);
  }

  lemma DecodeEncode2(x: byte, y: byte)
    ensures Decode(Encode([x, y])) == Some([x, y])
  {
    var e := Group2(x, y);
    assert Encode([x, y]) == e;
    GroupRoundTrip2(x, y);
    DecodeLastGroup(e);
  }

  /** Decoding inverts encoding: distinct byte strings have distinct encodings. */
  lemma {:induction false} DecodeEncode(b: seq<byte>)
    ensures Decode(Encode(b)) == Some(b)
    decreases |b|
  {
    if |b| == 0 {
    } else if |b| == 1 {
      DecodeEncode1(b[0]);
      assert b == [b[0]];
    } else if |b| == 2 {
      DecodeEncode2(b[0], b[1]);
      assert b == [b[0], b[1]];
    } else {
      DecodeEncode(b[3..]);
      DecodeAfterGroup(b, Encode(b[3..]), Encode(b));
    }
  }
}

=== FILE: js.dfy ===
/** The fragments of JavaScript's value semantics that the client relies on:
    bytes of a `Uint8Array`, `undefined`-or-value options, JSON values read
    from a token response, ToBoolean ("truthiness"), the ToUint8(ToNumber(·))
    conversion a typed array applies to what `map` returns, and the decimal
    ToString that `join` applies to each element. */
module Js {

  /** An element of a `Uint8Array`. */
  type byte = x: int | 0 <= x < 256

  /** `undefined`/`null` (None) or a present value (Some). */
  datatype Option<+T> = None | Some(value: T)

  /** A value produced by `response.json()`. JSON has no NaN; it can produce
      -0, but -0 and 0 are both falsy, so a `real` is enough to decide
      truthiness: a number is falsy exactly when it is zero. */
  datatype JsonValue =
    | JNull
    | JBool(b: bool)
    | JNumber(n: real)
    | JString(s: string)
    | JArray(items: seq<JsonValue>)
    | JObject(members: map<string, JsonValue>)

  /** ToBoolean of a property read from a JSON value; None is `undefined`. */
  predicate Truthy(v: Option<JsonValue>) {
    match v
    case None => false
    case Some(JNull) => false
    case Some(JBool(b)) => b
    case Some(JNumber(n)) => n != 0.0
    case Some(JString(s)) => s != ""
    case Some(JArray(_)) => true
    case Some(JObject(_)) => true
  }

  /** Property access `data.name` on a non-null JSON value: only objects have
      own data properties; on strings, numbers, booleans and arrays the
      properties read by the client are `undefined`. */
  function Property(data: JsonValue, name: string): (r: Option<JsonValue>)
    ensures r.Some? <==> data.JObject? && name in data.members
    ensures r.Some? ==> r.value == data.members[name]
  {
    match data
    case JObject(m) => if name in m then Some(m[name]) else None
    case _ => None
  }

  predicate IsDigit(c: char) {
    '0' <= c <= '9'
  }

  /** The decimal digit character of a value below ten. */
  function DigitChar(d: int): (c: char)
    requires 0 <= d < 10
    ensures IsDigit(c)
  {
    ('0' as int + d) as char
  }

  /** The numeric value of a decimal digit character. */
  function DigitValue(c: char): (d: int)
    requires IsDigit(c)
    ensures 0 <= d < 10 && DigitChar(d) == c
  {
    c as int - '0' as int
  }

  /** ToUint8(ToNumber(s)) for a one-character string `s == [c]`: an ASCII
      digit converts to its value; a white-space character converts to +0;
      every other character converts to NaN, which ToUint8 maps to 0. */
  function ToUint8OfChar(c: char): (r: byte)
    ensures r < 10
    ensures IsDigit(c) ==> DigitChar(r) == c
    ensures !IsDigit(c) ==> r == 0
  {
    if IsDigit(c) then DigitValue(c) else 0
  }

  /** The value of a string of decimal digits, most significant first. */
  function DecimalValue(s: string): nat
    requires forall i :: 0 <= i < |s| ==> IsDigit(s[i])
  {
    if |s| == 0 then 0 else 10 * DecimalValue(s[..|s| - 1]) + DigitValue(s[|s| - 1])
  }

  /** Number::toString for a non-negative integer: its shortest decimal
      representation. */
  function NumberToString(n: nat): (r: string)
    ensures |r| >= 1 && (|r| > 1 ==> r[0] != '0')
    ensures forall i :: 0 <= i < |r| ==> IsDigit(r[i])
    ensures DecimalValue(r) == n
    ensures n < 10 <==> |r| == 1
  {
    if n < 10 then [DigitChar(n)]
    else
      var prefix := NumberToString(n / 10);
      var r := prefix + [DigitChar(n % 10)];
      assert r[..|r| - 1] == prefix;
      r
  }

  /** `Uint8Array.prototype.join('')`: the ToString of every element,
      concatenated without separator. */
  function JoinBytes(values: seq<byte>): (r: string)
    ensures |values| <= |r|
    ensures forall i :: 0 <= i < |r| ==> IsDigit(r[i])
  {
    if |values| == 0 then []
    else JoinBytes(values[..|values| - 1]) + NumberToString(values[|values| - 1])
  }

  /** Joining elements that are all below ten yields one digit character per
      element. */
  lemma {:induction false} JoinSingleDigits(values: seq<byte>)
    requires forall i :: 0 <= i < |values| ==> values[i] < 10
    ensures |JoinBytes(values)| == |values|
    ensures forall i :: 0 <= i < |values| ==> JoinBytes(values)[i] == DigitChar(values[i])
  {
    if |values| > 0 {
      var init := values[..|values| - 1];
      JoinSingleDigits(init);
      assert JoinBytes(values) == JoinBytes(init) + [DigitChar(values[|values| - 1])];
    }
  }
}

=== FILE: pkce.dfy ===
/** The PKCE material of RFC 7636 and the secret store of the client
    (src/utils/pkce.js): random strings, the base64url rewriting of a standard
    base64 encoding, the S256 code challenge, and the two stores that carry
    secrets, the redirect-surviving session store and the in-memory token
    cell. */
module Pkce {
  import opened Js
  import Base64
  import Utf8

  /* ---------------------------------------------------------------------- */
  /* Random strings                                                          */
  /* ---------------------------------------------------------------------- */

  /** The 62-character alphabet the random bytes are mapped onto: `A`..`Z`,
      `a`..`z`, `0`..`9`, which is the base64 alphabet without `+` and `/`.
      Only its last ten characters are digits. */
  function Possible(): (s: string)
    ensures |s| == 62 && forall k :: 0 <= k < 62 ==> s[k] == Base64.CharOf(k)
    ensures forall k :: 0 <= k < 62 ==> (IsDigit(s[k]) <==> 52 <= k)
    ensures forall k :: 52 <= k < 62 ==> s[k] == DigitChar(k - 52)
  {
    seq(62, k requires 0 <= k < 62 => Base64.CharOf(k))
  }

  /** `values.map(x => possible[x % possible.length])` on a `Uint8Array`: the
      result is again a `Uint8Array`, so every one-character string the
      callback returns is stored through ToUint8(ToNumber(·)). */
  function TypedArrayMap(values: seq<byte>): (r: seq<byte>)
    ensures |r| == |values|
    ensures forall i :: 0 <= i < |r| ==> r[i] < 10 && DigitChar(r[i]) == RenderedChar(values[i])
  {
    seq(|values|, i requires 0 <= i < |values| => ToUint8OfChar(Possible()[values[i] % 62]))
  }

  /** The character that ends up in the output for one random byte: the
      alphabet character the byte selects when that character is a digit,
      and '0' when it is a letter. */
  function RenderedChar(x: byte): char {
    var c := Possible()[x % 62];
    if IsDigit(c) then c else '0'
  }

  /** `generateRandomString(length)` for the `length` random bytes drawn by
      `crypto.getRandomValues`: one character per byte, always a decimal
      digit, and therefore always in the alphabet. */
  function RandomString(randomBytes: seq<byte>): (r: string)
    ensures |r| == |randomBytes|
    ensures forall i :: 0 <= i < |r| ==> r[i] == RenderedChar(randomBytes[i])
    ensures forall i :: 0 <= i < |r| ==> IsDigit(r[i]) && r[i] in Possible()
  {
    var values := TypedArrayMap(randomBytes);
    JoinSingleDigits(values);
    assert Possible()[52] == '0';
    JoinBytes(values)
  }

  /** Only the last ten alphabet positions (the digits) survive the typed
      array; the 52 letters all become '0'. */
  lemma RenderedCharDigits(x: byte)
    ensures x % 62 >= 52 ==> RenderedChar(x) == DigitChar(x % 62 - 52)
    ensures x % 62 < 52 ==> RenderedChar(x) == '0'
  {
  }

  /** Every byte that selects a letter gives the same output as the byte
      that selects the digit '0': the string "0". */
  lemma RandomStringCollapsesLetters(x: byte)
    requires x % 62 < 52
    ensures !IsDigit(Possible()[x % 62])
    ensures RandomString([x]) == RandomString([52]) == "0"
  {
    assert Possible()[52] == Base64.CharOf(52) == '0';
    assert RenderedChar(x) == '0' && RenderedChar(52) == '0';
    SingleByte(x);
    SingleByte(52);
  }

  /** One random byte gives the one character it renders as. */
  lemma SingleByte(x: byte)
    ensures RandomString([x]) == [RenderedChar(x)]
  {
    var r := RandomString([x]);
    assert |r| == 1 && r[0] == RenderedChar(x);
  }

  /* ---------------------------------------------------------------------- */
  /* base64url                                                               */
  /* ---------------------------------------------------------------------- */

  /** The binary string built character by character with
      `String.fromCharCode(bytes[i])`. */
  function BinaryString(bytes: seq<byte>): (s: string)
    ensures |s| == |bytes|
    ensures forall i :: 0 <= i < |s| ==> s[i] as int == bytes[i]
  {
    seq(|bytes|, i requires 0 <= i < |bytes| => bytes[i] as char)
  }

  /** `s.replace(/from/g, to)` for a single character `from`. */
  function ReplaceAll(s: string, from: char, to: char): (r: string)
    ensures |r| == |s|
    ensures forall i :: 0 <= i < |s| ==> r[i] == (if s[i] == from then to else s[i])
  {
    if |s| == 0 then []
    else [if s[0] == from then to else s[0]] + ReplaceAll(s[1..], from, to)
  }

  /** `s.replace(/c/g, '')`: every occurrence of `c` deleted, the other
      characters kept in order. */
  function RemoveAll(s: string, c: char): (r: string)
    ensures |r| <= |s|
    ensures forall x :: x in r <==> x in s && x != c
  {
    if |s| == 0 then []
    else (if s[0] == c then [] else [s[0]]) + RemoveAll(s[1..], c)
  }

  /** Every character other than `c` is kept as often as it occurs, and
      `c` not at all. */
  lemma {:induction false} RemoveAllCounts(s: string, c: char)
    ensures multiset(RemoveAll(s, c)) == multiset(s)[c := 0]
  {
    if |s| > 0 {
      var t := s[1..];
      RemoveAllCounts(t, c);
      assert s == [s[0]] + t;
      assert multiset(s) == multiset{s[0]} + multiset(t);
      if s[0] == c {
        assert RemoveAll(s, c) == RemoveAll(t, c);
        assert multiset(s)[c := 0] == multiset(t)[c := 0];
      } else {
        assert RemoveAll(s, c) == [s[0]] + RemoveAll(t, c);
        assert multiset(s)[c := 0] == multiset{s[0]} + multiset(t)[c := 0];
      }
    }
  }

  /** Removal works segment by segment, so the kept characters stay in
      their order. */
  lemma {:induction false} RemoveAllAppend(a: string, b: string, c: char)
    ensures RemoveAll(a + b, c) == RemoveAll(a, c) + RemoveAll(b, c)
  {
    if |a| > 0 {
      assert (a + b)[1..] == a[1..] + b;
      RemoveAllAppend(a[1..], b, c);
    } else {
      assert a + b == b;
    }
  }

  lemma {:induction false} RemoveAllAbsent(a: string, c: char)
    requires c !in a
    ensures RemoveAll(a, c) == a
  {
    if |a| > 0 {
      assert a[1..] + [] == a[1..];
      assert c !in a[1..];
      RemoveAllAbsent(a[1..], c);
      assert a == [a[0]] + a[1..];
    }
  }

  /** A string of `k` padding characters. */
  function Padding(k: nat): (r: string)
    ensures |r| == k && forall i :: 0 <= i < k ==> r[i] == Base64.Pad
  {
    seq(k, _ => Base64.Pad)
  }

  predicate IsUrlSafe(c: char) {
    'A' <= c <= 'Z' || 'a' <= c <= 'z' || '0' <= c <= '9' || c == '-' || c == '_'
  }

  /** The character rewriting of base64url: `+` to `-`, then `/` to `_`. */
  function ToUrlAlphabet(s: string): (r: string)
    ensures |r| == |s|
    ensures '+' !in r && '/' !in r
  {
    ReplaceAll(ReplaceAll(s, '+', '-'), '/', '_')
  }

  /** The reverse rewriting: `-` to `+`, then `_` to `/`. */
  function FromUrlAlphabet(s: string): (r: string)
    ensures |r| == |s|
    ensures '-' !in r && '_' !in r
  {
    ReplaceAll(ReplaceAll(s, '-', '+'), '_', '/')
  }

  /** `base64urlencode(bytes)`: `btoa` of the binary string, then `+` to `-`,
      `/` to `_`, and every `=` removed (Appendix A of RFC 7636). */
  function Base64UrlEncode(bytes: seq<byte>): (r: string)
    ensures '+' !in r && '/' !in r && '=' !in r
  {
    var binary := BinaryString(bytes);
    var standard := Base64.Btoa(binary).value;
    RemoveAll(ToUrlAlphabet(standard), '=')
  }

  /** Reference inverse of the rewriting: `-` back to `+`, `_` back to `/`,
      and `=` appended up to a multiple of four characters. */
  function ToStandardBase64(u: string): (s: string)
    ensures |s| % 4 == 0 || |u| % 4 == 1
  {
    var t := FromUrlAlphabet(u);
    t + Padding((4 - |t| % 4) % 4)
  }

  lemma BtoaOfBinary(bytes: seq<byte>)
    ensures Base64.Btoa(BinaryString(bytes)) == Some(Base64.Encode(bytes))
  {
    var s := BinaryString(bytes);
    assert seq(|s|, i requires 0 <= i < |s| => s[i] as int) == bytes;
  }

  /** On alphabet characters the rewriting is undone by the reverse one and
      produces only URL-safe characters. */
  lemma UrlAlphabetInverse(body: string)
    requires forall i :: 0 <= i < |body| ==> Base64.IsAlphabetChar(body[i])
    ensures FromUrlAlphabet(ToUrlAlphabet(body)) == body
    ensures forall i :: 0 <= i < |body| ==> IsUrlSafe(ToUrlAlphabet(body)[i])
  {
  }

  /** A well-shaped encoding is an alphabet body followed by its padding. */
  lemma ShapedParts(n: nat, e: string)
    requires Base64.WellShaped(n, e)
    ensures var m := |e| - Base64.PadCount(n);
      && 0 <= m
      && e[m..] == Padding(Base64.PadCount(n))
      && (forall i :: 0 <= i < m ==> Base64.IsAlphabetChar(e[i]))
  {
    var m := |e| - Base64.PadCount(n);
    forall i | 0 <= i < |e| - m ensures e[m..][i] == Base64.Pad {
      assert e[m..][i] == e[m + i];
    }
  }

  /** The rewriting works character by character. */
  lemma UrlAlphabetAppend(a: string, b: string)
    ensures ToUrlAlphabet(a + b) == ToUrlAlphabet(a) + ToUrlAlphabet(b)
  {
  }

  /** Padding is left alone by the rewriting and removed entirely by `replace(/=/g, '')`. */
  lemma UrlFormOfPadding(k: nat)
    ensures ToUrlAlphabet(Padding(k)) == Padding(k)
    ensures RemoveAll(Padding(k), '=') == []
  {
    RemoveAllOnly(Padding(k), '=');
  }

  /** Removing `c` from a string made only of `c` leaves nothing. */
  lemma {:induction false} RemoveAllOnly(s: string, c: char)
    requires forall i :: 0 <= i < |s| ==> s[i] == c
    ensures RemoveAll(s, c) == []
  {
    if |s| > 0 {
      RemoveAllOnly(s[1..], c);
    }
  }

  /** The rewritten body of an encoding contains no `=`. */
  lemma NoPadInUrlBody(body: string)
    requires forall i :: 0 <= i < |body| ==> Base64.IsAlphabetChar(body[i])
    ensures '=' !in ToUrlAlphabet(body)
  {
    var u := ToUrlAlphabet(body);
    forall i | 0 <= i < |u| ensures u[i] != '=' {
    }
  }

  /** Removing `=` from the rewritten standard encoding drops exactly its
      padding. */
  lemma StripPadding(n: nat, e: string)
    requires Base64.WellShaped(n, e)
    ensures var m := |e| - Base64.PadCount(n);
      && m >= 0
      && RemoveAll(ToUrlAlphabet(e), '=') == ToUrlAlphabet(e[..m])
      && e[m..] == Padding(Base64.PadCount(n))
      && (forall i :: 0 <= i < m ==> Base64.IsAlphabetChar(e[i]))
  {
    ShapedParts(n, e);
    var p := Base64.PadCount(n);
    var m := |e| - p;
    var body, tail := e[..m], e[m..];
    assert e == body + tail;
    UrlAlphabetAppend(body, tail);
    UrlFormOfPadding(p);
    NoPadInUrlBody(body);
    var u := ToUrlAlphabet(body);
    RemoveAllAppend(u, tail, '=');
    RemoveAllAbsent(u, '=');
    assert u + [] == u;
  }

  /** Length arithmetic of an encoding of `n` bytes without its padding. */
  lemma UnpaddedLength(n: nat, padded: int, unpadded: int)
    requires padded == 4 * ((n + 2) / 3) && unpadded == padded - Base64.PadCount(n)
    ensures unpadded == (4 * n + 2) / 3
    ensures (4 - unpadded % 4) % 4 == Base64.PadCount(n)
  {
    var q, r := n / 3, n % 3;
    assert n == 3 * q + r;
    if r == 0 {
      assert (n + 2) / 3 == q && (4 * n + 2) / 3 == 4 * q;
    } else if r == 1 {
      assert (n + 2) / 3 == q + 1 && (4 * n + 2) / 3 == 4 * q + 2;
    } else {
      assert (n + 2) / 3 == q + 1 && (4 * n + 2) / 3 == 4 * q + 3;
    }
  }

  lemma ToStandardUnfold(u: string, body: string, p: nat)
    requires FromUrlAlphabet(u) == body && (4 - |u| % 4) % 4 == p
    ensures ToStandardBase64(u) == body + Padding(p)
  {
  }

  /** A well-shaped standard encoding split into its unpadded part and its
      padding. */
  lemma ShapedSplit(n: nat, e: string)
    requires Base64.WellShaped(n, e)
    ensures var p := Base64.PadCount(n);
      var m := |e| - p;
      && 0 <= m == (4 * n + 2) / 3
      && (4 - m % 4) % 4 == p
      && RemoveAll(ToUrlAlphabet(e), '=') == ToUrlAlphabet(e[..m])
      && e[m..] == Padding(p)
      && (forall i :: 0 <= i < m ==> Base64.IsAlphabetChar(e[i]))
  {
    var p := Base64.PadCount(n);
    var m := |e| - p;
    assert |e| == 4 * ((n + 2) / 3);
    UnpaddedLength(n, |e|, m);
    StripPadding(n, e);
  }

  /** The base64url form of any well-shaped standard encoding: reversible,
      of the unpadded length, and URL-safe. */
  lemma UrlFormOfShaped(n: nat, e: string)
    requires Base64.WellShaped(n, e)
    ensures var u := RemoveAll(ToUrlAlphabet(e), '=');
      && ToStandardBase64(u) == e
      && |u| == (4 * n + 2) / 3
      && forall i :: 0 <= i < |u| ==> IsUrlSafe(u[i])
  {
    ShapedSplit(n, e);
    var p := Base64.PadCount(n);
    var m := |e| - p;
    var body := e[..m];
    var u := ToUrlAlphabet(body);
    UrlAlphabetInverse(body);
    ToStandardUnfold(u, body, p);
    assert body + e[m..] == e;
  }

  /** Undoing the rewriting gives back exactly the standard base64 of the
      bytes; the base64url text is four characters per three bytes, rounded
      up, and uses only URL-safe characters. */
  lemma Base64UrlRoundTrip(bytes: seq<byte>)
    ensures ToStandardBase64(Base64UrlEncode(bytes)) == Base64.Encode(bytes)
    ensures |Base64UrlEncode(bytes)| == (4 * |bytes| + 2) / 3
    ensures forall i :: 0 <= i < |Base64UrlEncode(bytes)| ==> IsUrlSafe(Base64UrlEncode(bytes)[i])
  {
    BtoaOfBinary(bytes);
    Base64.EncodeShape(bytes);
    UrlFormOfShaped(|bytes|, Base64.Encode(bytes));
  }

  /* ---------------------------------------------------------------------- */
  /* S256 code challenge                                                     */
  /* ---------------------------------------------------------------------- */

  /** A SHA-256 digest: 32 bytes. */
  type Digest = s: seq<byte> | |s| == 32 witness seq(32, _ => 0)

  /** `generateCodeChallenge(verifier)` (section 4.2 of RFC 7636, method S256):
      base64url of SHA-256 of the UTF-8 encoding of the verifier. SHA-256
      itself is the parameter `sha256`. The challenge is 43 URL-safe
      characters from which the digest can be recovered. */
  function CodeChallenge(sha256: seq<byte> -> Digest, verifier: string): (r: string)
    ensures |r| == 43
    ensures forall i :: 0 <= i < |r| ==> IsUrlSafe(r[i])
    ensures ToStandardBase64(r) == Base64.Encode(sha256(Utf8.Encode(verifier)))
    ensures Base64.Decode(ToStandardBase64(r)) == Some(sha256(Utf8.Encode(verifier)))
  {
    var digest := sha256(Utf8.Encode(verifier));
    Base64UrlRoundTrip(digest);
    Base64.DecodeEncode(digest);
    Base64UrlEncode(digest)
  }

  function AsciiCode(c: char): byte
    requires Utf8.IsAscii(c)
  {
    c as int
  }

  /** The character codes of an ASCII string. */
  function AsciiCodes(s: string): (r: seq<byte>)
    requires forall i :: 0 <= i < |s| ==> Utf8.IsAscii(s[i])
    ensures |r| == |s|
  {
    seq(|s|, i requires 0 <= i < |s| => AsciiCode(s[i]))
  }

  /** For an ASCII verifier (every verifier this client generates is one),
      the hashed bytes are the characters' codes. */
  lemma ChallengeOfAscii(sha256: seq<byte> -> Digest, verifier: string)
    requires forall i :: 0 <= i < |verifier| ==> Utf8.IsAscii(verifier[i])
    ensures CodeChallenge(sha256, verifier) == Base64UrlEncode(sha256(AsciiCodes(verifier)))
  {
    Utf8.EncodeAscii(verifier);
    assert Utf8.Encode(verifier) == AsciiCodes(verifier);
  }

  /* ---------------------------------------------------------------------- */
  /* Secret store                                                            */
  /* ---------------------------------------------------------------------- */

  const VerifierKey: string := "code_verifier"
  const StateKey: string := "state"

  /** The two stores that hold secrets: `sessionStorage` (string keys and
      values, surviving the redirect) and the module-level access-token cell
      (None is `null`). */
  datatype Secrets = Secrets(session: map<string, string>, token: Option<string>)

  /** The cell's value when the script starts, e.g. after the redirect back. */
  const InitialToken: Option<string> := None

  lemma KeysDistinct()
    ensures VerifierKey != StateKey
  {
    assert |VerifierKey| != |StateKey|;
  }

  /** Verifier and state are either both stored or both absent. */
  predicate Paired(session: map<string, string>) {
    VerifierKey in session <==> StateKey in session
  }

  /** The two `sessionStorage.setItem` calls: verifier first, then state. */
  function SaveSession(session: map<string, string>, verifier: string, state: string): (r: map<string, string>)
    ensures VerifierKey in r && r[VerifierKey] == verifier
    ensures StateKey in r && r[StateKey] == state
    ensures r.Keys == session.Keys + {VerifierKey, StateKey}
    ensures forall k :: k in session && k != VerifierKey && k != StateKey ==> r[k] == session[k]
  {
    KeysDistinct();
    session[VerifierKey := verifier][StateKey := state]
  }

  /** What `generatePkceAndState` returns, and the secrets it leaves behind. */
  datatype Login = Login(codeChallenge: string, state: string, secrets: Secrets)

  /** `generatePkceAndState()`: a 128-character verifier and a 32-character
      state, drawn from the two given random byte strings, are written to the
      session store (overwriting earlier ones); the returned challenge is the
      challenge of the stored verifier and the returned state is the stored
      state. Nothing else changes. */
  function GeneratePkceAndState(verifierBytes: seq<byte>, stateBytes: seq<byte>,
                                sha256: seq<byte> -> Digest, s: Secrets): (r: Login)
    requires |verifierBytes| == 128 && |stateBytes| == 32
    ensures VerifierKey in r.secrets.session && StateKey in r.secrets.session
    ensures |r.secrets.session[VerifierKey]| == 128 && |r.secrets.session[StateKey]| == 32
    ensures r.secrets.session[VerifierKey] == RandomString(verifierBytes)
    ensures r.secrets.session[StateKey] == RandomString(stateBytes)
    ensures r.codeChallenge == CodeChallenge(sha256, r.secrets.session[VerifierKey])
    ensures r.state == r.secrets.session[StateKey]
    ensures r.secrets.session.Keys == s.session.Keys + {VerifierKey, StateKey}
    ensures forall k :: k in s.session && k != VerifierKey && k != StateKey ==>
              r.secrets.session[k] == s.session[k]
    ensures r.secrets.token == s.token
  {
    var codeVerifier := RandomString(verifierBytes);
    var codeChallenge := CodeChallenge(sha256, codeVerifier);
    var state := RandomString(stateBytes);
    Login(codeChallenge, state, s.(session := SaveSession(s.session, codeVerifier, state)))
  }

  /** `storeAccessToken(token)`: only the cell changes. */
  function StoreAccessToken(s: Secrets, token: string): (r: Secrets)
    ensures GetAccessToken(r) == Some(token)
    ensures r.session == s.session
  {
    s.(token := Some(token))
  }

  /** `getAccessToken()`. */
  function GetAccessToken(s: Secrets): Option<string> {
    s.token
  }

  /** `clearTokenStore()`: the cell becomes `null` and exactly the
      `code_verifier` and `state` entries leave the session store. */
  function ClearTokenStore(s: Secrets): (r: Secrets)
    ensures GetAccessToken(r) == None
    ensures r.session.Keys == s.session.Keys - {VerifierKey, StateKey}
    ensures forall k :: k in r.session ==> r.session[k] == s.session[k]
    ensures Paired(r.session)
  {
    Secrets(s.session - {VerifierKey, StateKey}, None)
  }

  /** Clearing twice leaves the same secrets as clearing once. */
  lemma ClearTokenStoreIdempotent(s: Secrets)
    ensures ClearTokenStore(ClearTokenStore(s)) == ClearTokenStore(s)
  {
    var once := ClearTokenStore(s);
    assert once.session - {VerifierKey, StateKey} == once.session;
  }

  /** Starting a login attempt, then clearing, removes what the attempt
      stored and leaves the rest of the session store as it was apart from
      the two keys. */
  lemma ClearAfterLogin(verifierBytes: seq<byte>, stateBytes: seq<byte>,
                        sha256: seq<byte> -> Digest, s: Secrets)
    requires |verifierBytes| == 128 && |stateBytes| == 32
    ensures ClearTokenStore(GeneratePkceAndState(verifierBytes, stateBytes, sha256, s).secrets)
            == ClearTokenStore(s)
  {
    var a := ClearTokenStore(GeneratePkceAndState(verifierBytes, stateBytes, sha256, s).secrets);
    var b := ClearTokenStore(s);
    assert a.session == b.session;
  }
}

=== FILE: router.dfy ===
/** The callback side of the authorization-code flow (src/router/index.js):
    `processOAuthCallback` and the `beforeEnter` guard of `/`, taken together
    as one transition on the secret store, and the guard of `/dashboard`.
    The token endpoint is not called: its answer is an input of the step. */
module Router {
  import opened Js
  import opened Pkce

  const RedirectUri: string := "https://yrandilson.github.io/oauth-pkce-spa/"
  const AuthorizationCodeGrant: string := "authorization_code"

  /** Build-time configuration: `VITE_APP_CLIENT_ID`, which may be unset. */
  datatype Config = Config(clientId: Option<string>)

  /** One query parameter as the router parses it: absent (`undefined`), a
      key without `=` (`null`), a single value, or a repeated key (an array).
      The values of a repeated key are not kept: the client never reads them,
      because the first string method it calls on the array throws. */
  datatype QueryValue = Absent | Bare | Text(s: string) | Repeated

  /** ToBoolean of a query value. */
  predicate QueryTruthy(v: QueryValue) {
    match v
    case Absent => false
    case Bare => false
    case Text(s) => s != ""
    case Repeated => true
  }

  datatype Query = Query(code: QueryValue, state: QueryValue)

  /** `state === savedState`, where `savedState` is what
      `sessionStorage.getItem('state')` returns (`null` when missing). */
  predicate StrictEqualsSaved(state: QueryValue, saved: Option<string>) {
    match state
    case Absent => false
    case Bare => saved.None?
    case Text(s) => saved == Some(s)
    case Repeated => false
  }

  /** `sessionStorage.getItem(key)`. */
  function GetItem(session: map<string, string>, key: string): (r: Option<string>)
    ensures r.Some? <==> key in session
    ensures r.Some? ==> r.value == session[key]
  {
    if key in session then Some(session[key]) else None
  }

  /** The request body object of the token exchange. */
  datatype TokenRequest = TokenRequest(
    clientId: Option<string>,
    code: string,
    codeVerifier: string,
    redirectUri: string,
    grantType: string)

  /** The members `JSON.stringify` writes for a request body; an unset client
      id is `undefined` and is left out. */
  function RequestBody(req: TokenRequest): (body: map<string, string>)
    ensures body.Keys == {"code", "code_verifier", "redirect_uri", "grant_type"}
                         + (if req.clientId.Some? then {"client_id"} else {})
    ensures "client_secret" !in body
    ensures body["code"] == req.code && body["code_verifier"] == req.codeVerifier
    ensures body["redirect_uri"] == req.redirectUri && body["grant_type"] == req.grantType
    ensures req.clientId.Some? ==> body["client_id"] == req.clientId.value
  {
    var body := map["code" := req.code, "code_verifier" := req.codeVerifier,
                    "redirect_uri" := req.redirectUri, "grant_type" := req.grantType];
    if req.clientId.Some? then body["client_id" := req.clientId.value] else body
  }

  /** What `fetch` and `response.json()` produce: a rejected promise (network
      failure or a body that is not JSON), or the parsed JSON value. */
  datatype TokenResponse = TransportFailure | Received(data: JsonValue)

  /** Why a callback failed: the error the source throws. `ScriptTypeError`
      is a `TypeError` raised by the script itself (a string method called on
      a non-string, a property read on `null`, or `new Error(detail)` on a
      detail that has no string conversion). */
  datatype Failure =
    | ScriptTypeError
    | StateMismatch
    | MissingVerifier
    | ServerError(detail: JsonValue)
    | MissingToken
    | TransportError

  /** How `processOAuthCallback` settles: it returns a token or it throws. */
  datatype Settled = Token(token: string) | Thrown(failure: Failure)

  /** Whether ToString of a parsed JSON value throws a `TypeError`. An object
      with its own `toString` member shadows `Object.prototype.toString` with
      a value that is not callable, and `Object.prototype.valueOf` returns the
      object itself, so no primitive is found. An array converts through
      `join`, which converts every element that is not `null`. Every other
      value has a string conversion. */
  predicate ToStringThrows(v: JsonValue): (r: bool)
    ensures r ==> v.JObject? || v.JArray?
    ensures v.JObject? ==> (r <==> "toString" in v.members)
  {
    match v
    case JObject(m) => "toString" in m
    case JArray(items) => exists i :: 0 <= i < |items| && ToStringThrows(items[i])
    case _ => false
  }

  /** `v` inside `depth` single-element arrays. */
  function Nest(v: JsonValue, depth: nat): JsonValue {
    if depth == 0 then v else JArray([Nest(v, depth - 1)])
  }

  /** Nesting in arrays neither adds nor removes a string conversion: the
      wrapped value throws exactly when the value itself does. */
  lemma {:induction false} NestedToStringThrows(v: JsonValue, depth: nat)
    ensures ToStringThrows(Nest(v, depth)) <==> ToStringThrows(v)
  {
    if depth > 0 {
      NestedToStringThrows(v, depth - 1);
      assert [Nest(v, depth - 1)][0] == Nest(v, depth - 1);
    }
  }

  /** The failure `new Error(detail)` raises: the server error itself, or a
      `TypeError` while converting the detail to the message string. */
  function ErrorOf(detail: JsonValue): (f: Failure)
    ensures f == ScriptTypeError <==> ToStringThrows(detail)
    ensures !ToStringThrows(detail) ==> f == ServerError(detail)
  {
    if ToStringThrows(detail) then ScriptTypeError else ServerError(detail)
  }

  /** The part of `processOAuthCallback` after the request is sent: reading
      `error`, `error_description` and `access_token` from the response. */
  function ReadTokenResponse(response: TokenResponse): (r: Settled)
    ensures response.TransportFailure? ==> r == Thrown(TransportError)
    ensures r.Token? <==>
              && response.Received?
              && !response.data.JNull?
              && !Truthy(Property(response.data, "error"))
              && Property(response.data, "access_token").Some?
              && Property(response.data, "access_token").value.JString?
              && Property(response.data, "access_token").value.s != ""
    ensures r.Token? ==> Property(response.data, "access_token") == Some(JString(r.token))
  {
    match response
    case TransportFailure => Thrown(TransportError)
    case Received(data) =>
      if data.JNull? then Thrown(ScriptTypeError)
      else
        var error := Property(data, "error");
        var description := Property(data, "error_description");
        if Truthy(error) then
          Thrown(ErrorOf(if Truthy(description) then description.value else error.value))
        else
          var accessToken := Property(data, "access_token");
          if !Truthy(accessToken) then Thrown(MissingToken)
          else
            match accessToken.value
            case JString(t) => Token(t)
            case _ => Thrown(ScriptTypeError)
  }

  /** A server error: the failure carries `error_description` when that is
      truthy and `error` otherwise, unless converting that value to the
      message string throws. */
  lemma ServerErrorDetail(data: JsonValue)
    requires !data.JNull? && Truthy(Property(data, "error"))
    ensures ReadTokenResponse(Received(data)).Thrown?
    ensures var description := Property(data, "error_description");
      var detail := if Truthy(description) then description.value else Property(data, "error").value;
      ReadTokenResponse(Received(data)).failure
        == (if ToStringThrows(detail) then ScriptTypeError else ServerError(detail))
  {
  }

  /** `{"error":{"toString":"x"}}`: the message cannot be built, so the
      callback fails with a `TypeError` rather than a server error. */
  lemma ErrorWithoutStringForm(data: JsonValue)
    requires data == JObject(map["error" := JObject(map["toString" := JString("x")])])
    ensures ReadTokenResponse(Received(data)) == Thrown(ScriptTypeError)
  {
    assert Property(data, "error_description") == None;
  }

  /** A response without a truthy `access_token` fails with MissingToken,
      unless it already failed on `error`. */
  lemma MissingTokenFails(data: JsonValue)
    requires !data.JNull? && !Truthy(Property(data, "error"))
    requires !Truthy(Property(data, "access_token"))
    ensures ReadTokenResponse(Received(data)) == Thrown(MissingToken)
  {
  }

  /** The result of running `processOAuthCallback`: what is left in the
      session store, the request it sent (if it got that far), and how it
      settled. */
  datatype CallbackRun = CallbackRun(session: map<string, string>, request: Option<TokenRequest>, settled: Settled)

  /** `processOAuthCallback(code, state)` in the order of its statements: the
      log lines that call `substring` on `code` and `state`, the state check,
      removal of `state`, the verifier check, removal of `code_verifier`, the
      log line that calls `code.substring`, then the exchange. */
  function ProcessOAuthCallback(config: Config, code: QueryValue, state: QueryValue,
                                session: map<string, string>, response: TokenResponse): (r: CallbackRun)
    ensures r.request.Some? ==>
              && StrictEqualsSaved(state, GetItem(session, StateKey))
              && VerifierKey in session && session[VerifierKey] != ""
              && code.Text?
              && r.request.value == TokenRequest(config.clientId, code.s, session[VerifierKey],
                                                 RedirectUri, AuthorizationCodeGrant)
              && r.settled == ReadTokenResponse(response)
    ensures r.request.None? ==> r.settled.Thrown?
    ensures r.session.Keys <= session.Keys
    ensures forall k :: k in r.session ==> r.session[k] == session[k]
    ensures forall k :: k in session && k != VerifierKey && k != StateKey ==> k in r.session
    ensures r.settled.Token? ==> VerifierKey !in r.session && StateKey !in r.session
  {
    if code.Repeated? || state.Repeated? then
      CallbackRun(session, None, Thrown(ScriptTypeError))
    else if !StrictEqualsSaved(state, GetItem(session, StateKey)) then
      CallbackRun(session, None, Thrown(StateMismatch))
    else
      var afterState := session - {StateKey};
      var codeVerifier := GetItem(afterState, VerifierKey);
      if codeVerifier.None? || codeVerifier.value == "" then
        CallbackRun(afterState, None, Thrown(MissingVerifier))
      else
        var afterVerifier := afterState - {VerifierKey};
        if !code.Text? then
          CallbackRun(afterVerifier, None, Thrown(ScriptTypeError))
        else
          KeysDistinct();
          var request := TokenRequest(config.clientId, code.s, codeVerifier.value,
                                      RedirectUri, AuthorizationCodeGrant);
          CallbackRun(afterVerifier, Some(request), ReadTokenResponse(response))
  }

  /* ---------------------------------------------------------------------- */
  /* The route guards                                                        */
  /* ---------------------------------------------------------------------- */

  /** What a guard passes to `next`: nothing (show the route) or a path. */
  datatype Navigation = Proceed | RedirectTo(path: string)

  /** The outcome of entering `/`. */
  datatype Outcome = LoginView | Authenticated(token: string) | Failed(reason: Failure)

  /** Everything one entry into `/` decides: the exchange request it sent,
      the secrets after it, where it navigates, its outcome, and whether it
      rewrote the address bar to drop the query. */
  datatype Step = Step(request: Option<TokenRequest>, secrets: Secrets, navigation: Navigation,
                       outcome: Outcome, addressReplaced: bool)

  const DashboardPath: string := "/dashboard"
  const LoginPath: string := "/"

  /** The `beforeEnter` guard of `/`. Without a truthy `code` it shows the
      login view and touches nothing. With one it runs the callback; on
      success it stores the token and goes to `/dashboard`, on any failure it
      clears the token store and goes to `/`. */
  function RootGuard(config: Config, query: Query, secrets: Secrets, response: TokenResponse): (r: Step)
    ensures !QueryTruthy(query.code) ==>
              r.request.None? && r.secrets == secrets && r.navigation == Proceed
              && r.outcome == LoginView && !r.addressReplaced
    ensures QueryTruthy(query.code) ==>
              && VerifierKey !in r.secrets.session && StateKey !in r.secrets.session
              && r.addressReplaced && !r.outcome.LoginView?
    ensures forall k :: k != VerifierKey && k != StateKey ==>
              (k in r.secrets.session <==> k in secrets.session)
    ensures forall k :: k in r.secrets.session ==> r.secrets.session[k] == secrets.session[k]
    ensures r.outcome.Authenticated? <==> r.navigation == RedirectTo(DashboardPath)
    ensures r.outcome.Authenticated? ==>
              r.secrets.token == Some(r.outcome.token) && r.outcome.token != ""
    ensures r.outcome.Failed? ==>
              r.secrets.token == None && r.navigation == RedirectTo(LoginPath)
    ensures r.request.Some? ==>
              && query.code.Text?
              && StrictEqualsSaved(query.state, GetItem(secrets.session, StateKey))
              && VerifierKey in secrets.session
              && r.request.value == TokenRequest(config.clientId, query.code.s,
                                                 secrets.session[VerifierKey],
                                                 RedirectUri, AuthorizationCodeGrant)
  {
    if !QueryTruthy(query.code) then
      Step(None, secrets, Proceed, LoginView, false)
    else
      var run := ProcessOAuthCallback(config, query.code, query.state, secrets.session, response);
      var afterRun := secrets.(session := run.session);
      match run.settled
      case Token(t) =>
        Step(run.request, StoreAccessToken(afterRun, t), RedirectTo(DashboardPath), Authenticated(t), true)
      case Thrown(f) =>
        Step(run.request, ClearTokenStore(afterRun), RedirectTo(LoginPath), Failed(f), true)
  }

  /** The `beforeEnter` guard of `/dashboard`: a `null` or empty token sends
      the user to `/`, any other token lets the dashboard show. */
  function DashboardGuard(secrets: Secrets): (r: Navigation)
    ensures r == Proceed <==> exists t :: GetAccessToken(secrets) == Some(t) && t != ""
    ensures r != Proceed ==> r == RedirectTo(LoginPath)
  {
    match GetAccessToken(secrets)
    case None => RedirectTo(LoginPath)
    case Some(t) => if t == "" then RedirectTo(LoginPath) else Proceed
  }

  /** The token cell lives only in memory: on a fresh page load it is null,
      so the dashboard sends the user to `/` whatever the session store
      holds. */
  lemma FreshLoadNeedsLogin(session: map<string, string>)
    ensures DashboardGuard(Secrets(session, InitialToken)) == RedirectTo(LoginPath)
  {
  }

  /** `window.location.hash.split('?')[0]`: the hash up to its first `?`. */
  function HashBeforeQuery(hash: string): (r: string)
    ensures r <= hash
    ensures '?' !in r
    ensures '?' !in hash ==> r == hash
    ensures |r| < |hash| ==> hash[|r|] == '?'
  {
    if |hash| == 0 || hash[0] == '?' then []
    else [hash[0]] + HashBeforeQuery(hash[1..])
  }

  /* ---------------------------------------------------------------------- */
  /* Properties of the callback step                                         */
  /* ---------------------------------------------------------------------- */

  /** A query state that is not the stored state, including every present
      query state when no state is stored, stops the callback before any
      request: it fails with StateMismatch, the token cell is null, both
      session keys are gone and the user is sent to `/`. */
  lemma StateMismatchNoExchange(config: Config, query: Query, secrets: Secrets, response: TokenResponse)
    requires query.code.Text? && query.code.s != ""
    requires !query.state.Repeated?
    requires !StrictEqualsSaved(query.state, GetItem(secrets.session, StateKey))
    ensures var r := RootGuard(config, query, secrets, response);
      && r.request.None?
      && r.outcome == Failed(StateMismatch)
      && r.secrets.token == None
      && VerifierKey !in r.secrets.session && StateKey !in r.secrets.session
      && r.navigation == RedirectTo(LoginPath)
  {
  }

  /** With no stored state, a callback whose `state` parameter is absent or
      has a value never reaches the token endpoint. */
  lemma MissingSessionStateFails(config: Config, query: Query, secrets: Secrets, response: TokenResponse)
    requires query.code.Text? && query.code.s != ""
    requires query.state.Absent? || query.state.Text?
    requires StateKey !in secrets.session
    ensures RootGuard(config, query, secrets, response).request.None?
    ensures RootGuard(config, query, secrets, response).outcome == Failed(StateMismatch)
  {
    StateMismatchNoExchange(config, query, secrets, response);
  }

  /** A matching state but a missing or empty verifier also stops before any
      request, with the same cleanup and navigation. */
  lemma MissingVerifierNoExchange(config: Config, query: Query, secrets: Secrets, response: TokenResponse)
    requires query.code.Text? && query.code.s != ""
    requires !query.state.Repeated?
    requires StrictEqualsSaved(query.state, GetItem(secrets.session, StateKey))
    requires VerifierKey !in secrets.session || secrets.session[VerifierKey] == ""
    ensures var r := RootGuard(config, query, secrets, response);
      && r.request.None?
      && r.outcome == Failed(MissingVerifier)
      && r.secrets.token == None
      && VerifierKey !in r.secrets.session && StateKey !in r.secrets.session
      && r.navigation == RedirectTo(LoginPath)
  {
    KeysDistinct();
  }

  /** The body sent to the token endpoint has exactly the five members of
      section 4.5 of RFC 7636 and section 4.1.3 of RFC 6749 (client_id only
      when configured) and no client secret. */
  lemma RequestBodyHasNoSecret(config: Config, query: Query, secrets: Secrets, response: TokenResponse)
    requires RootGuard(config, query, secrets, response).request.Some?
    ensures var body := RequestBody(RootGuard(config, query, secrets, response).request.value);
      && body.Keys == {"code", "code_verifier", "redirect_uri", "grant_type"}
                      + (if config.clientId.Some? then {"client_id"} else {})
      && "client_secret" !in body
      && body["code"] == query.code.s
      && body["code_verifier"] == secrets.session[VerifierKey]
      && body["grant_type"] == "authorization_code"
      && body["redirect_uri"] == RedirectUri
  {
  }

  /** Once a request has been sent, the step succeeds exactly when the
      response carries no truthy `error` and a non-empty string
      `access_token`, and the stored token is that string. */
  lemma ExchangeSucceedsIff(config: Config, query: Query, secrets: Secrets, response: TokenResponse, t: string)
    requires RootGuard(config, query, secrets, response).request.Some?
    ensures var r := RootGuard(config, query, secrets, response);
      r.outcome == Authenticated(t) <==>
        && response.Received?
        && !response.data.JNull?
        && !Truthy(Property(response.data, "error"))
        && Property(response.data, "access_token") == Some(JString(t))
        && t != ""
    ensures var r := RootGuard(config, query, secrets, response);
      r.outcome == Authenticated(t) ==>
        GetAccessToken(r.secrets) == Some(t) && r.navigation == RedirectTo(DashboardPath)
  {
  }

  /** A transport failure, a server error and a missing token all end with a
      null token cell and navigation to `/`. */
  lemma ExchangeFailureClears(config: Config, query: Query, secrets: Secrets, response: TokenResponse)
    requires RootGuard(config, query, secrets, response).request.Some?
    requires ReadTokenResponse(response).Thrown?
    ensures var r := RootGuard(config, query, secrets, response);
      && r.outcome == Failed(ReadTokenResponse(response).failure)
      && GetAccessToken(r.secrets) == None
      && r.navigation == RedirectTo(LoginPath)
  {
  }

  /** The request is only sent when the query state strictly equals the
      stored one: a present value equal to the stored state, or a bare
      `state` key while no state is stored. */
  lemma ExchangeNeedsMatchingState(config: Config, query: Query, secrets: Secrets, response: TokenResponse)
    requires RootGuard(config, query, secrets, response).request.Some?
    ensures || (query.state.Text? && StateKey in secrets.session
                && secrets.session[StateKey] == query.state.s)
            || (query.state.Bare? && StateKey !in secrets.session)
  {
  }

  /** When verifier and state are stored together, as every operation of the
      client leaves them, the request is only sent for a query state equal
      to the stored one. */
  lemma PairedExchangeNeedsStoredState(config: Config, query: Query, secrets: Secrets, response: TokenResponse)
    requires Paired(secrets.session)
    requires RootGuard(config, query, secrets, response).request.Some?
    ensures StateKey in secrets.session && query.state == Text(secrets.session[StateKey])
  {
    ExchangeNeedsMatchingState(config, query, secrets, response);
  }

  /** Without the pairing the bare-key case is reachable: a session holding a
      verifier but no state, and the query `?code=c&state`, send the verifier
      to the token endpoint. */
  lemma UnpairedBareStateExchanges(config: Config, secrets: Secrets, response: TokenResponse)
    requires secrets.session == map[VerifierKey := "v"]
    ensures !Paired(secrets.session)
    ensures RootGuard(config, Query(Text("c"), Bare), secrets, response).request
            == Some(TokenRequest(config.clientId, "c", "v", RedirectUri, AuthorizationCodeGrant))
  {
    KeysDistinct();
  }

  /** Every step keeps verifier and state paired. */
  lemma RootGuardKeepsPaired(config: Config, query: Query, secrets: Secrets, response: TokenResponse)
    requires Paired(secrets.session)
    ensures Paired(RootGuard(config, query, secrets, response).secrets.session)
  {
  }

  /** Starting a login leaves the session paired, and so does every callback
      step that follows it. */
  lemma LoginThenCallbackPaired(verifierBytes: seq<byte>, stateBytes: seq<byte>, sha256: seq<byte> -> Digest,
                                config: Config, query: Query, secrets: Secrets, response: TokenResponse)
    requires |verifierBytes| == 128 && |stateBytes| == 32
    ensures var login := GeneratePkceAndState(verifierBytes, stateBytes, sha256, secrets);
      && Paired(login.secrets.session)
      && Paired(RootGuard(config, query, login.secrets, response).secrets.session)
  {
    var login := GeneratePkceAndState(verifierBytes, stateBytes, sha256, secrets);
    RootGuardKeepsPaired(config, query, login.secrets, response);
  }

  /** A callback with a non-empty code and the stored state, while a
      non-empty verifier is stored, sends that verifier with that code. */
  lemma MatchingCallbackExchanges(config: Config, code: string, secrets: Secrets, response: TokenResponse)
    requires code != ""
    requires StateKey in secrets.session && VerifierKey in secrets.session
    requires secrets.session[VerifierKey] != ""
    ensures RootGuard(config, Query(Text(code), Text(secrets.session[StateKey])), secrets, response).request
            == Some(TokenRequest(config.clientId, code, secrets.session[VerifierKey],
                                 RedirectUri, AuthorizationCodeGrant))
  {
    KeysDistinct();
  }

  /** A callback issued for the login just started, carrying the state it
      returned, sends the verifier it stored. */
  lemma LoginThenCallbackExchanges(verifierBytes: seq<byte>, stateBytes: seq<byte>, sha256: seq<byte> -> Digest,
                                   config: Config, code: string, secrets: Secrets, response: TokenResponse)
    requires |verifierBytes| == 128 && |stateBytes| == 32 && code != ""
    ensures var login := GeneratePkceAndState(verifierBytes, stateBytes, sha256, secrets);
      var r := RootGuard(config, Query(Text(code), Text(login.state)), login.secrets, response);
      && r.request == Some(TokenRequest(config.clientId, code, RandomString(verifierBytes),
                                        RedirectUri, AuthorizationCodeGrant))
      && login.codeChallenge == CodeChallenge(sha256, r.request.value.codeVerifier)
  {
    var login := GeneratePkceAndState(verifierBytes, stateBytes, sha256, secrets);
    assert login.secrets.session[VerifierKey] != "" by {
      assert |login.secrets.session[VerifierKey]| == 128;
    }
    MatchingCallbackExchanges(config, code, login.secrets, response);
  }

  /** Replaying a callback (reloading the same address) after it was
      processed never reaches the token endpoint again. */
  lemma ReplayNeverExchanges(config: Config, query: Query, secrets: Secrets,
                             first: TokenResponse, second: TokenResponse)
    ensures var once := RootGuard(config, query, secrets, first);
      RootGuard(config, query, once.secrets, second).request.None?
  {
  }

  /** The failure cleanup is idempotent: clearing again after a failed step
      changes nothing. */
  lemma FailureCleanupIdempotent(config: Config, query: Query, secrets: Secrets, response: TokenResponse)
    requires RootGuard(config, query, secrets, response).outcome.Failed?
    ensures var r := RootGuard(config, query, secrets, response);
      ClearTokenStore(r.secrets) == r.secrets
  {
    var r := RootGuard(config, query, secrets, response);
    assert r.secrets.session - {VerifierKey, StateKey} == r.secrets.session;
  }

  /** After a callback, the dashboard opens exactly when the callback
      succeeded. */
  lemma DashboardAfterCallback(config: Config, query: Query, secrets: Secrets, response: TokenResponse)
    requires QueryTruthy(query.code)
    ensures var r := RootGuard(config, query, secrets, response);
      DashboardGuard(r.secrets) == Proceed <==> r.outcome.Authenticated?
  {
  }
}

=== FILE: scenarios.dfy ===
/** Concrete runs of the callback step. */
module Scenarios {
  import opened Js
  import opened Pkce
  import opened Router

  /** The session a login leaves behind: state `XYZ` or `ABC`, verifier `V1`. */
  function StoredSession(state: string): map<string, string> {
    map[VerifierKey := "V1", StateKey := state]
  }

  /** Callback `?code=abc123&state=XYZ` for stored state `XYZ` and verifier
      `V1`, answered with `{"access_token":"tok_1"}`: the request carries the
      code, the verifier and the grant type, and the token becomes `tok_1`. */
  lemma CallbackSucceeds(config: Config)
    ensures var response := Received(JObject(map["access_token" := JString("tok_1")]));
      var r := RootGuard(config, Query(Text("abc123"), Text("XYZ")),
                         Secrets(StoredSession("XYZ"), None), response);
      && r.request.Some?
      && RequestBody(r.request.value)["code"] == "abc123"
      && RequestBody(r.request.value)["code_verifier"] == "V1"
      && RequestBody(r.request.value)["grant_type"] == "authorization_code"
      && r.outcome == Authenticated("tok_1")
      && GetAccessToken(r.secrets) == Some("tok_1")
      && r.navigation == RedirectTo("/dashboard")
  {
    var secrets := Secrets(StoredSession("XYZ"), None);
    var data := JObject(map["access_token" := JString("tok_1")]);
    KeysDistinct();
    MatchingCallbackExchanges(config, "abc123", secrets, Received(data));
    assert Property(data, "error") == None;
    assert Property(data, "access_token") == Some(JString("tok_1"));
  }

  /** The same callback when the stored state is `ABC`: no request, and the
      step fails with StateMismatch. */
  lemma CallbackWrongState(config: Config, response: TokenResponse)
    ensures var r := RootGuard(config, Query(Text("abc123"), Text("XYZ")),
                               Secrets(StoredSession("ABC"), None), response);
      r.request.None? && r.outcome == Failed(StateMismatch)
  {
    KeysDistinct();
    StateMismatchNoExchange(config, Query(Text("abc123"), Text("XYZ")),
                            Secrets(StoredSession("ABC"), None), response);
  }

  /** A response `{"error":"bad_verification_code"}` fails with that detail
      and leaves no token. */
  lemma CallbackServerError(config: Config)
    ensures var response := Received(JObject(map["error" := JString("bad_verification_code")]));
      var r := RootGuard(config, Query(Text("abc123"), Text("XYZ")),
                         Secrets(StoredSession("XYZ"), None), response);
      && r.outcome == Failed(ServerError(JString("bad_verification_code")))
      && GetAccessToken(r.secrets) == None
  {
    var secrets := Secrets(StoredSession("XYZ"), None);
    var data := JObject(map["error" := JString("bad_verification_code")]);
    KeysDistinct();
    MatchingCallbackExchanges(config, "abc123", secrets, Received(data));
    assert Property(data, "error") == Some(JString("bad_verification_code"));
    assert Property(data, "error_description") == None;
  }
}

=== FILE: utf8.dfy ===
/** `TextEncoder.prototype.encode`: the UTF-8 encoding (RFC 3629) of a
    string of Unicode scalar values. */
module Utf8 {
  import opened Js

  predicate IsAscii(c: char) {
    c as int < 0x80
  }

  /** The one to four bytes that encode one scalar value. */
  function EncodeChar(c: char): (r: seq<byte>)
    ensures 1 <= |r| <= 4
    ensures |r| == 1 <==> IsAscii(c)
    ensures IsAscii(c) ==> r[0] == c as int
    ensures forall i :: 1 <= i < |r| ==> 0x80 <= r[i] < 0xC0
  {
    var n := c as int;
    if n < 0x80 then [n]
    else if n < 0x800 then [0xC0 + n / 0x40, 0x80 + n % 0x40]
    else if n < 0x1_0000 then [0xE0 + n / 0x1000, 0x80 + (n / 0x40) % 0x40, 0x80 + n % 0x40]
    else [0xF0 + n / 0x4_0000, 0x80 + (n / 0x1000) % 0x40, 0x80 + (n / 0x40) % 0x40, 0x80 + n % 0x40]
  }

  /** Number of bytes announced by a lead byte; 0 for a byte that cannot
      start an encoding. */
  function SequenceLength(lead: byte): nat {
    if lead < 0x80 then 1
    else if 0xC0 <= lead < 0xE0 then 2
    else if 0xE0 <= lead < 0xF0 then 3
    else if 0xF0 <= lead < 0xF8 then 4
    else 0
  }

  /** The scalar value of the bytes of one encoded character. */
  function DecodeChar(r: seq<byte>): int
    requires 1 <= |r| <= 4
  {
    var b: seq<int> := r;
    if |b| == 1 then b[0]
    else if |b| == 2 then (b[0] - 0xC0) * 0x40 + (b[1] - 0x80)
    else if |b| == 3 then (b[0] - 0xE0) * 0x1000 + (b[1] - 0x80) * 0x40 + (b[2] - 0x80)
    else (b[0] - 0xF0) * 0x4_0000 + (b[1] - 0x80) * 0x1000 + (b[2] - 0x80) * 0x40 + (b[3] - 0x80)
  }

  /** The first byte of a character's encoding announces its length, and the
      bytes decode back to the character. */
  lemma EncodeCharInverse(c: char)
    ensures SequenceLength(EncodeChar(c)[0]) == |EncodeChar(c)|
    ensures DecodeChar(EncodeChar(c)) == c as int
  {
    var n := c as int;
    var r := EncodeChar(c);
    if n < 0x80 {
    } else if n < 0x800 {
      Digits2(n);
    } else if n < 0x1_0000 {
      Digits3(n);
    } else {
      Digits4(n);
    }
  }

  /** The 6-bit digits a two-, three- or four-byte sequence carries. */
  lemma Digits2(n: int)
    requires 0x80 <= n < 0x800
    ensures 0xC0 <= 0xC0 + n / 0x40 < 0xE0
    ensures (n / 0x40) * 0x40 + n % 0x40 == n
  {
  }

  lemma Digits3(n: int)
    requires 0x800 <= n < 0x1_0000
    ensures 0xE0 <= 0xE0 + n / 0x1000 < 0xF0
    ensures (n / 0x1000) * 0x1000 + ((n / 0x40) % 0x40) * 0x40 + n % 0x40 == n
  {
    var q := n / 0x40;
    assert n == q * 0x40 + n % 0x40;
    assert q == (q / 0x40) * 0x40 + q % 0x40;
    assert q / 0x40 == n / 0x1000;
  }

  lemma Digits4(n: int)
    requires 0x1_0000 <= n < 0x11_0000
    ensures 0xF0 <= 0xF0 + n / 0x4_0000 < 0xF8
    ensures (n / 0x4_0000) * 0x4_0000 + ((n / 0x1000) % 0x40) * 0x1000
            + ((n / 0x40) % 0x40) * 0x40 + n % 0x40 == n
  {
    var q := n / 0x40;
    var p := q / 0x40;
    assert n == q * 0x40 + n % 0x40;
    assert q == p * 0x40 + q % 0x40;
    assert p == (p / 0x40) * 0x40 + p % 0x40;
    assert p == n / 0x1000;
    assert p / 0x40 == n / 0x4_0000;
  }

  /** The encoding of a whole string, character after character. */
  function Encode(s: string): seq<byte> {
    if |s| == 0 then [] else EncodeChar(s[0]) + Encode(s[1..])
  }

  /** An ASCII-only string encodes to its character codes, one byte each. */
  lemma {:induction false} EncodeAscii(s: string)
    requires forall i :: 0 <= i < |s| ==> IsAscii(s[i])
    ensures |Encode(s)| == |s|
    ensures forall i :: 0 <= i < |s| ==> Encode(s)[i] == s[i] as int
  {
    if |s| > 0 {
      EncodeAscii(s[1..]);
      assert Encode(s) == [s[0] as int] + Encode(s[1..]);
    }
  }

  /** Distinct strings have distinct encodings: the lead byte fixes where the
      first character ends, and that character decodes uniquely. */
  lemma {:induction false} EncodeInjective(s: string, t: string)
    requires Encode(s) == Encode(t)
    ensures s == t
  {
    if |s| == 0 {
    } else {
      assert |t| > 0;
      var a, b := EncodeChar(s[0]), EncodeChar(t[0]);
      EncodeCharInverse(s[0]);
      EncodeCharInverse(t[0]);
      assert Encode(s) == a + Encode(s[1..]);
      assert Encode(t) == b + Encode(t[1..]);
      assert a[0] == Encode(s)[0] == b[0];
      assert |a| == |b|;
      assert a == Encode(s)[..|a|] == b;
      assert s[0] as int == t[0] as int;
      assert Encode(s[1..]) == Encode(s)[|a|..] == Encode(t[1..]);
      EncodeInjective(s[1..], t[1..]);
      assert s == [s[0]] + s[1..];
      assert t == [t[0]] + t[1..];
    }
  }
}
